=== FILE: README.md ===
# A verified model of a customer/product CRUD service

The service is a small Express application over a MySQL database `loja_db`.
It exposes two resources, customers (`/clientes`) and products (`/produtos`),
each with list, create, update and delete handlers. The handlers validate
fields with JavaScript truthiness and `isNaN`, refuse duplicate customer CPFs
(Brazilian tax ids), fill in a partial update from the current row with `??`,
and turn the MySQL result counts (`insertId`, `affectedRows`, `changedRows`)
into a response. The model files wrap one SQL statement per operation.

This project models that request logic in Dafny as pure functions. Each
handler maps a request and a table to a response and the new table:
`(Request, Table, reachable) -> Reply(Option<Response>, Table)`. `None`
stands for the update path that returns without sending any response.

- `js_values.dfy` (`JsValues`): request values (`Undef | Null | Bool | Num | Str`),
  truthiness, `Number(...)` on strings, `isNaN`, `Number.isInteger` and `??`.
  It also proves that the model's `Number` reads the decimal text of any
  integer back as that integer. JavaScript agrees with this up to 2^53, where
  doubles stop holding every integer.
- `store.dfy` (`Store`): a table is a `map<int, Row>` plus the AUTO_INCREMENT
  counter. Each SQL statement of the model files is a function on tables:
  select-all, select-by-id, the CPF lookup, insert, update and delete. Both
  model files send the same statements to their own table, so one table type
  serves both. For an UPDATE, `affectedRows` counts the rows the WHERE clause
  matched, since the mysql2 driver asks the server for found rows, and
  `changedRows` counts the rows whose values actually changed.
- `http.dfy` (`Http`): the request and response shapes, the three 400 checks,
  the two catch blocks, and the code the two controllers share: the insert
  report, the `??` merge with UPDATE and its outcome tests, and the delete
  handler.
- `cliente_controller.dfy`, `produto_controller.dfy`: the four handlers of
  each controller.
- `service.dfy` (`Service`): the route table and one request as one atomic
  step over both tables. Lemmas there cover any sequence of requests, and a
  concrete product lifecycle is proved step by step.

`reachable` says whether the database answers. When it is false, the first
statement a handler sends throws, and the handler's catch block answers. The
handlers look at the database in no other way.

Two calls in the source name model members that do not exist. The customer
update calls `findByCpf` (the model defines `verificaCpf`), and the product
listing calls `selectALL` (the model defines `selectAll`). Each affected
handler is written once, with the called member's name as a parameter, and
checked against the set of members the model object defines. The as-written
handler passes the source's name. The variant, clearly labelled as not the
source, passes the name that exists. `Service.Build` picks one or the other
(`AsWritten` or `Corrected`), and the service-level invariants are proved
for both.

Some behaviour of the source is easy to miss, and the model keeps it:
- In the variant update, the 409 check also matches the row being edited,
  so re-sending a customer's own CPF answers 409
  (`ClienteController.OwnCpfConflicts`).
- The type clause of the update check rejects only a numeric-looking name
  together with a non-numeric value. A lone bad field passes and is written
  (`ProdutoController.AlterarProdutoNumericNamePasses`,
  `ProdutoController.AlterarProdutoTextValuePasses`).
- `??` keeps `""`, so an update can blank a name
  (`ProdutoController.AlterarProdutoCanBlankName`).
- The update fallthrough (no response) cannot happen against this store. A
  row found by `selectById` is always matched by the UPDATE, so
  `affectedRows` is 1 and `changedRows` is 0 or 1. `Http.ClassifyUpdate`
  states the fallthrough itself. Every handler's contract says that a
  response is sent.

## Model

| member | source | states |
|---|---|---|
| `JsValues.NumberOfIntToString` | src/controllers/clienteController.js:125-126 | `Number` applied to the decimal text of any integer gives back that integer, so a route `/clientes/7` addresses key 7 and passes `Number.isInteger` |
| `JsValues.NumberOfForeignCharIsNaN` | src/controllers/clienteController.js:41 | a string with any character other than a digit, ASCII white space, a sign, `.` or a letter of `Infinity` converts to NaN under the model's `Number`, so such a name passes the `!isNaN(descricao)` clause |
| `JsValues.IsNaNFacts` | src/controllers/produtoController.js:45 | `isNaN` is true of an absent field and false of null, booleans, JSON numbers and the empty string |
| `Store.SelectById` | src/models/clienteModel.js:25-30 | the result holds exactly the rows whose key equals the argument, with their stored values: at most one row, since the id is the key |
| `Store.VerificaCpf` | src/models/clienteModel.js:57-62 | the result holds exactly the rows whose CPF equals the argument under SQL `=` (never equal to NULL); it is empty exactly when the argument is null/undefined or no row holds it |
| `Store.Insert` | src/models/clienteModel.js:32-55 | the table gains exactly one row `(name, val)` under a key that was free, which is reported as `insertId` with `affectedRows` 1; all other rows are unchanged |
| `Store.Update` | src/models/clienteModel.js:64-70 | only the matching row is set to `(name, val)`; `affectedRows` is 1 exactly when the id exists; `changedRows` is 1 exactly when the new values differ from the old, which happens exactly when the table changes |
| `Store.Delete` | src/models/clienteModel.js:72-77 | removes the row with the given id and no other; `affectedRows` is 0 when the id is absent, and the row count drops by `affectedRows` |
| `Store.SelectAllAfterInsert` | src/models/produtoModel.js:20-24 | listing every row after an insert gives the earlier listing plus the new row |
| `Store.InsertThenSelectById` | src/models/produtoModel.js:26-56 | a row inserted is found again by `selectById` under the reported `insertId`, with the values it was given |
| `Store.InsertTwiceDistinctIds` | src/models/produtoModel.js:51-56 | inserting the same values twice creates two rows under two different ids |
| `Store.UpdateWithCurrentValues` | src/models/produtoModel.js:65-70 | writing a row's current values back matches one row, changes none, and leaves the table equal |
| `Store.DeleteTwice` | src/models/produtoModel.js:72-77 | after one delete the id is gone; a second delete of the same id affects no row and changes nothing |
| `Store.InsertKeepsUnique` | src/controllers/clienteController.js:47-57 | inserting a CPF the lookup did not find keeps CPFs unique |
| `Store.UpdateKeepsUnique` | src/controllers/clienteController.js:92-105 | an update that keeps the row's CPF, or sets one the lookup did not find, keeps CPFs unique |
| `Store.DeleteKeepsUnique` | src/controllers/clienteController.js:139 | deleting rows keeps CPFs unique |
| `Http.CreateAcceptance` | src/controllers/clienteController.js:41-45 | create's 400 check accepts exactly this: a non-empty string name that converts to NaN, and a value that is `true`, a non-zero number, or a non-empty string that converts to a number |
| `Http.DeleteIdAcceptance` | src/controllers/clienteController.js:125-130 | delete's 400 check accepts exactly the non-zero integers; 0, NaN and non-integers are refused |
| `Http.ClassifyUpdate` | src/controllers/clienteController.js:106-113 | `(1, 0)` answers 200 "no changes", `(1, 1)` answers 200 "changed", and every other pair of counts sends no response |
| `Http.ClassifyDelete` | src/controllers/produtoController.js:129-136 | `affectedRows` 0 answers 200 "deletion failed", any other count 200 "deleted" |
| `Http.InsertAndReport` | src/controllers/produtoController.js:51-64 | after validation the table gains exactly the row `(descricao, valor)`; `insertId` 0 answers 200 with the error payload and the row stays; any other id answers 201 with the insert header |
| `Http.MergeAndUpdate` | src/controllers/produtoController.js:88-103 | only null or undefined fields fall back to the current row; the target row gets the merged values, other rows and keys are untouched; the answer is 200 "no changes" exactly when the table is unchanged, and 200 "changed" exactly when it changed |
| `Http.DeleteHandler` | src/controllers/clienteController.js:123-154 | an invalid id answers 400 with no table operation; with no database, 500 and no change; an absent id answers 200 "not found" and changes nothing; an existing id is deleted and answered 200 "deleted"; the table changes exactly when the answer is "deleted", and then only the target row is removed |
| `ClienteController.SelecionaTodos` | src/controllers/clienteController.js:15-36 | a truthy `idCliente` answers 200 with exactly the rows under that id, even none; otherwise 200 "no results" for an empty table, else 200 with all rows; the table is never changed; no database gives 500 |
| `ClienteController.RegisterIfNew` | src/controllers/clienteController.js:47-60 | answers 409 exactly when some row already holds the CPF under SQL `=` (a missing CPF matches nothing), and then changes nothing; otherwise inserts; CPF uniqueness is kept |
| `ClienteController.IncluiRegistro` | src/controllers/clienteController.js:38-68 | a rejected request answers 400 with the table unchanged; 409 exactly when the fields pass and some row holds the CPF; with no database, 200 with the error payload and no change; accepted fields with a reachable database go to the CPF check and then the insert, answering 201 exactly when the new id is not 0; 201 means exactly one row `(descricao, valor)` was added under the reported id; the table otherwise gains at most that row; unique CPFs stay unique |
| `ClienteController.AlterarClienteCalling` | src/controllers/clienteController.js:70-121 | with the lookup member named as a parameter: an undefined name answers 500 before anything else; the table changes exactly when the answer is 200 "changed", never gains or loses keys, and unique CPFs stay unique |
| `ClienteController.AlterarCliente` | src/controllers/clienteController.js:74 | as written, every update answers 500 naming `findByCpf` and leaves the table unchanged, whatever the request and whether the database answers |
| `ClienteController.AlterarClienteWithVerificaCpf` | src/controllers/clienteController.js:76-113 | variant with `verificaCpf`: 400 for a rejected request; 200 "not found" for an absent id, before the 409 check; 409 exactly when some row, the edited one included, holds the new CPF; otherwise an accepted update of an existing row runs the `??` merge and the UPDATE and answers 200 "no changes" or "changed"; on change only the target row takes the `??`-merged values; unique CPFs stay unique |
| `ClienteController.DeleteCliente` | src/controllers/clienteController.js:123-154 | an invalid id answers 400, no database 500, and an absent id 200 "not found", all unchanged; an existing id is deleted and answered 200 "deleted"; the table changes exactly when the answer is "deleted", and then it is the old table minus the target row; unique CPFs stay unique |
| `ClienteController.AlterarClienteSkipsValidation` | src/controllers/clienteController.js:72-85 | a request the 400 check would reject (no id, no fields) still answers 500, because the failing lookup runs first |
| `ClienteController.IncluiRegistroRefusesNumericName` | src/controllers/clienteController.js:41-45 | a name that is the decimal text of an integer is refused with 400 and the table is untouched |
| `ClienteController.OwnCpfConflicts` | src/controllers/clienteController.js:87-96 | in the variant, re-sending the edited customer's own CPF answers 409 and changes nothing |
| `ProdutoController.SelecionaTodosCalling` | src/controllers/produtoController.js:15-40 | with the listing member as a parameter: a truthy `idProduto` answers 200 with exactly the rows under that id; without it, an undefined member answers 500, and a defined one lists all rows or "no results"; once a statement is sent, no database means 500; the table is never changed |
| `ProdutoController.SelecionaTodos` | src/controllers/produtoController.js:24 | as written, listing without `idProduto` always answers 500 naming `selectALL`; with `idProduto` it answers 200 with rows, or 500 with no database; the table is unchanged |
| `ProdutoController.SelecionaTodosWithSelectAll` | src/controllers/produtoController.js:17-30 | variant with `selectAll`: 200 with all rows, or 200 "no results" for an empty table; the table is never changed |
| `ProdutoController.IncluiRegistro` | src/controllers/produtoController.js:42-65 | a rejected request answers 400 with no table operation; with no database, 200 with the error payload and no change; otherwise the table gains exactly the row `(descricao, valor)`, and the answer is 201 with the insert header exactly when its id is not 0, else 200 with the error payload while the row stays |
| `ProdutoController.AlterarProduto` | src/controllers/produtoController.js:67-111 | 400 when the id is 0 or NaN or both fields are falsy or the type clause fires; 200 "not found" for an absent id, unchanged; otherwise 200 "no changes" or "changed", with only null/undefined fields taken from the current row and other rows untouched |
| `ProdutoController.DeleteProduto` | src/controllers/produtoController.js:113-144 | an invalid id answers 400, no database 500, and an absent id 200 "not found", all unchanged; an existing id is deleted and answered 200 "deleted"; the table changes exactly when the answer is "deleted", and then only the target row is removed |
| `ProdutoController.IncluiRegistroTwice` | src/controllers/produtoController.js:51-56 | two identical valid creates both answer 201, with distinct ids, and the table grows by two rows |
| `ProdutoController.AlterarProdutoNumericNamePasses` | src/controllers/produtoController.js:72-81 | a numeric-looking name sent with a numeric value passes validation and is written |
| `ProdutoController.AlterarProdutoTextValuePasses` | src/controllers/produtoController.js:75 | a non-numeric value sent with a non-numeric name passes validation and is written |
| `ProdutoController.AlterarProdutoCanBlankName` | src/controllers/produtoController.js:88 | an empty-string name is kept by `??` and overwrites the product's name |
| `Service.Route` | src/routes/produtoRoutes.js:5-8 | GET and POST match exactly the bare `clientes`/`produtos` path; PUT and DELETE match exactly that path with a non-empty id segment, which is passed on as the route parameter; nothing else matches |
| `Service.Handle` | src/routes/routes.js:6-7 | every request gets a response; customer requests never touch `produtos`, and product requests never touch `clientes`; GET never changes the database, nor does any request the database does not answer; a change only comes with a 200 or 201 answer; unique CPFs stay unique |
| `Service.Serve` | src/routes/clienteRoutes.js:5-8 | a request is handled exactly when a route matches; the per-request guarantees of `Handle` carry over |
| `Service.Run` | src/controllers/clienteController.js:47-52 | over any sequence of requests, each answered by the database or not, unique CPFs stay unique; customer-only runs leave products untouched; read-only runs, and runs the database never answers, leave the database unchanged |
| `Service.ListProdutosCounterexample` | src/controllers/produtoController.js:24 | on an empty database, listing products answers 500 as written and 200 "no results" when corrected |
| `Service.UpdateClienteCounterexample` | src/controllers/clienteController.js:74 | renaming customer 1 answers 500 and changes nothing as written; when corrected it answers 200 "changed" and stores the new name |
| `Service.ProdutoLifecycle` | src/controllers/produtoController.js:42-144 | create answers 201 with id 1; a price update answers "changed"; reading id 1 returns the updated row; delete answers "deleted"; id 1 then reads empty, and a second delete answers "not found" |
| `Service.DuplicateCpfRefused` | src/controllers/clienteController.js:47-52 | a second customer with an already-registered CPF is refused with 409 and the database is unchanged |

## Findings

| source | as written | input that shows it | evidently intended | confidence | as-written member | corrected member |
|---|---|---|---|---|---|---|
| src/controllers/clienteController.js:74 | calls `clienteModel.findByCpf`, which the model object does not define, so a TypeError ends every update in 500 | `PUT /clientes/1` with body `{"descricao": "Bia"}` on a table holding customer 1 | look the CPF up with `verificaCpf` (src/models/clienteModel.js:57) | high; not executed | `ClienteController.AlterarCliente`, `Service.UpdateClienteCounterexample` | `ClienteController.AlterarClienteWithVerificaCpf` |
| src/controllers/produtoController.js:24 | calls `produtoModel.selectALL`; the model defines `selectAll`, so listing every product ends in 500 | `GET /produtos` without `idProduto` | call `selectAll` (src/models/produtoModel.js:20) | high; not executed | `ProdutoController.SelecionaTodos`, `Service.ListProdutosCounterexample` | `ProdutoController.SelecionaTodosWithSelectAll` |

## Left out

- The connection pool, credentials and start-up connectivity probe of src/config/db.js: I/O. The database is the abstract table value, and `reachable` stands in for any database failure.
- A database failure between two statements of one request (say, after the CPF lookup but before the UPDATE). One `reachable` flag covers the whole request, so the first statement fails or none does.
- Service.Route: matches path segments exactly. Express routers are case-insensitive and ignore a trailing slash by default, so `/Clientes` and `/clientes/` also reach the handlers in the source.
- server.js and Express itself: port listening, JSON body parsing, and the 404 for paths no route matches. `Service.Route` records only which handler serves which method and path.
- Interleaving of concurrent requests, including the check-then-insert race on a CPF. Each request is one atomic step.
- Floating-point numbers. A JSON number is `Num(n)` with an integer `n`, and prices with cents are written in hundredths. The handlers only test numbers for zero, for NaN and for equality, and this representation keeps all three.
- `Number` on strings follows the decimal part of the JavaScript grammar: ASCII white space, a sign, digits, an optional fraction, and `Infinity`. Exponents (`1e3`), hexadecimal, octal and binary literals, and non-ASCII white space are read as NaN, though JavaScript reads them as numbers.
- Rounding to a double. The model's `Number` on strings computes the exact decimal value. JavaScript rounds it to a double: `"9007199254740993"` reads as 9007199254740992, and `"1.0000000000000001"` reads as 1. So a route id such as `1.0000000000000001` is refused with 400 in the model, while JavaScript reads it as the integer 1 and acts on row 1.
- JSON objects and arrays as field values, and repeated query parameters (which Express turns into arrays).
- MySQL type coercion. Rows store the values as sent, and SQL `=` compares them as values, so `'5' = 5` is false in the model. The listing's id query text is converted with JavaScript `Number`. MySQL's looser conversion of a text such as `"5abc"` to 5 is not modelled.
- An update whose route id reads as `Infinity`. It passes the 400 check, and the driver writes it into the SQL text unquoted, so MySQL rejects the statement and the answer is 500. The model treats the id as a number that matches no row, so the answer is 200 "not found".
- The order of rows in a result set. Result sets are maps keyed by id.
- Console logging, the exact JSON layout, and the Portuguese message texts. Messages are tags, and `errorMessage` is the `Cause` of the failure.
- The `typeof id != "number"` clause of both update checks. It never holds for the result of `Number(...)`, so it is dropped.
- `Store.SelectAll` has no contract of its own: it returns the table's rows. What it means is stated by `Store.SelectAllAfterInsert` and by the list handlers' contracts.

=== FILE: cliente_controller.dfy ===
/** The customer controller: list, create, update and delete over the
    `clientes` table. Each handler is a function of the request, the table
    and whether the database answers (`reachable`); when it does not, the
    first statement the handler sends throws and the catch block answers.
 */
module ClienteController {
  import opened JsValues
  import opened Store
  import opened Http

  /** The members the `clienteModel` object defines. A handler that calls any
      other name gets a TypeError, which its catch block reports. */
  const ClienteModelMembers: set<string> := {"selectAll", "selectById", "insert", "verificaCpf", "update", "delete"}

  /** selecionaTodos: with a truthy id parameter, the rows under that id (an
      empty result is still a 200 `{ data }`); otherwise every row, or the
      "no results" message for an empty table. */
  function SelecionaTodos(req: Request, t: Table, reachable: bool): (r: Reply)
    ensures r.table == t && r.response.Some?
    ensures !reachable ==> r.response.value == ServerFailure(StoreFailure)
    ensures reachable ==> r.response.value.status == 200
    ensures reachable && Truthy(req.queryId) ==>
      && r.response.value.message == NoMessage && r.response.value.payload.Rows?
      && (forall k :: k in r.response.value.payload.rows <==> k in t.rows && ToNumber(req.queryId) == Int(k))
      && (forall k :: k in r.response.value.payload.rows ==> r.response.value.payload.rows[k] == t.rows[k])
    ensures reachable && !Truthy(req.queryId) ==>
      if t.rows == map[] then r.response.value == Response(200, NoResults, NoData)
      else r.response.value == Response(200, NoMessage, Rows(t.rows))
  {
    if !reachable then Reply(Some(ServerFailure(StoreFailure)), t)
    else if Truthy(req.queryId) then
      Reply(Some(Response(200, NoMessage, Rows(SelectById(t, ToNumber(req.queryId))))), t)
    else
      var rows := SelectAll(t);
      if |rows| == 0 then Reply(Some(Response(200, NoResults, NoData)), t)
      else Reply(Some(Response(200, NoMessage, Rows(rows))), t)
  }

  /** The part of incluiRegistro after the 400 check: refuse a CPF already
      registered, otherwise insert. */
  function RegisterIfNew(t: Table, descricao: Value, valor: Value): (r: Reply)
    ensures r.response.Some?
    ensures r.response.value.status == 409 <==> exists k :: k in t.rows && SqlEq(t.rows[k].val, valor)
    ensures r.response.value.status == 409 ==> r == Reply(Some(Response(409, CpfTaken, NoData)), t)
    ensures r.response.value.status != 409 ==> r == InsertAndReport(t, descricao, valor)
    ensures UniqueValues(t) ==> UniqueValues(r.table)
  {
    if |VerificaCpf(t, valor)| > 0 then Reply(Some(Response(409, CpfTaken, NoData)), t)
    else
      InsertKeepsUnique(t, descricao, valor);
      InsertAndReport(t, descricao, valor)
  }

  /** incluiRegistro: validate, refuse a CPF already registered, insert. */
  function IncluiRegistro(req: Request, t: Table, reachable: bool): (r: Reply)
    ensures r.response.Some?
    ensures CreateFieldsRejected(req.descricao, req.valor) ==> r == Reply(Some(BadRequest), t)
    ensures r.response.value.status == 409 <==>
      && !CreateFieldsRejected(req.descricao, req.valor) && reachable
      && exists k :: k in t.rows && t.rows[k].val == req.valor
    ensures !CreateFieldsRejected(req.descricao, req.valor) && !reachable ==>
      r == Reply(Some(CreateFailure(StoreFailure)), t)
    ensures !CreateFieldsRejected(req.descricao, req.valor) && reachable ==>
      r == RegisterIfNew(t, req.descricao, req.valor)
    ensures r.response.value.status == 409 || !reachable ==> r.table == t
    ensures r.table == t || GainsRow(t, r.table, r.table.nextId - 1, Row(req.descricao, req.valor))
    ensures r.response.value.status == 201 ==>
      && GainsRow(t, r.table, r.table.nextId - 1, Row(req.descricao, req.valor))
      && r.response.value.payload == Inserted(Header(r.table.nextId - 1, 1, 0))
    ensures UniqueValues(t) ==> UniqueValues(r.table)
  {
    if CreateFieldsRejected(req.descricao, req.valor) then Reply(Some(BadRequest), t)
    else if !reachable then Reply(Some(CreateFailure(StoreFailure)), t)
    else RegisterIfNew(t, req.descricao, req.valor)
  }

  /** alterarCliente, with the CPF lookup it performs first named by
      `lookup`. A name the model object lacks throws before anything else
      runs; a defined one performs `SELECT ... WHERE cpf_cliente = ?`. After
      the 400 check and the existence check, the 409 check refuses a CPF held
      by any row, the row being edited included; then the `??` merge and the
      UPDATE. */
  function AlterarClienteCalling(lookup: string, req: Request, t: Table, reachable: bool): (r: Reply)
    requires lookup in {"findByCpf", "verificaCpf"}
    ensures r.response.Some?
    ensures lookup !in ClienteModelMembers ==> r == Reply(Some(ServerFailure(NotAFunction(lookup))), t)
    ensures r.table != t <==> r.response.value == Response(200, Changed, NoData)
    ensures r.table.rows.Keys == t.rows.Keys && r.table.nextId == t.nextId
    ensures UniqueValues(t) ==> UniqueValues(r.table)
  {
    if lookup !in ClienteModelMembers then Reply(Some(ServerFailure(NotAFunction(lookup))), t)
    else if !reachable then Reply(Some(ServerFailure(StoreFailure)), t)
    else
      var existe := VerificaCpf(t, req.valor);
      var id := NumberOf(req.routeId);
      if UpdateFieldsRejected(id, req.descricao, req.valor) then Reply(Some(BadRequest), t)
      else if |SelectById(t, id)| == 0 then Reply(Some(Response(200, NotFound, NoData)), t)
      else if |existe| > 0 then Reply(Some(Response(409, NewCpfTaken, NoData)), t)
      else
        var current := t.rows[id.i];
        UpdateKeepsUnique(t, id, Coalesce(req.descricao, current.name), Coalesce(req.valor, current.val));
        MergeAndUpdate(t, id, req.descricao, req.valor)
  }

  /** alterarCliente as written: it calls `clienteModel.findByCpf`, which does
      not exist, so every update answers 500 and changes nothing, whatever
      the request and whether or not the database answers. */
  function AlterarCliente(req: Request, t: Table, reachable: bool): (r: Reply)
    ensures r.table == t
    ensures r.response == Some(ServerFailure(NotAFunction("findByCpf")))
  {
    AlterarClienteCalling("findByCpf", req, t, reachable)
  }

  /** A variant, not the source: alterarCliente with `verificaCpf`, the CPF
      lookup the model object does define, in place of `findByCpf`. */
  function AlterarClienteWithVerificaCpf(req: Request, t: Table, reachable: bool): (r: Reply)
    ensures r.response.Some?
    ensures !reachable ==> r == Reply(Some(ServerFailure(StoreFailure)), t)
    ensures reachable && UpdateFieldsRejected(NumberOf(req.routeId), req.descricao, req.valor) ==>
      r == Reply(Some(BadRequest), t)
    ensures (reachable && !UpdateFieldsRejected(NumberOf(req.routeId), req.descricao, req.valor)
      && !HasKey(t, NumberOf(req.routeId))) ==> r == Reply(Some(Response(200, NotFound, NoData)), t)
    ensures r.response.value.status == 409 <==>
      && reachable && !UpdateFieldsRejected(NumberOf(req.routeId), req.descricao, req.valor)
      && HasKey(t, NumberOf(req.routeId))
      && exists k :: k in t.rows && SqlEq(t.rows[k].val, req.valor)
    ensures r.response.value.status == 409 ==> r.table == t
    ensures (reachable && !UpdateFieldsRejected(NumberOf(req.routeId), req.descricao, req.valor)
      && HasKey(t, NumberOf(req.routeId))
      && !(exists k :: k in t.rows && SqlEq(t.rows[k].val, req.valor))) ==>
      r == MergeAndUpdate(t, NumberOf(req.routeId), req.descricao, req.valor)
    ensures r.table.rows.Keys == t.rows.Keys && r.table.nextId == t.nextId
    ensures r.table != t <==> r.response.value == Response(200, Changed, NoData)
    ensures r.table != t ==>
      var key := NumberOf(req.routeId);
      && HasKey(t, key)
      && r.table.rows[key.i].name == (if Nullish(req.descricao) then t.rows[key.i].name else req.descricao)
      && r.table.rows[key.i].val == (if Nullish(req.valor) then t.rows[key.i].val else req.valor)
      && (forall k :: k in t.rows && k != key.i ==> r.table.rows[k] == t.rows[k])
    ensures UniqueValues(t) ==> UniqueValues(r.table)
  {
    AlterarClienteCalling("verificaCpf", req, t, reachable)
  }

  /** deleteCliente. */
  function DeleteCliente(req: Request, t: Table, reachable: bool): (r: Reply)
    ensures r.response.Some?
    ensures DeleteIdRejected(NumberOf(req.routeId)) ==> r == Reply(Some(Response(400, InvalidId, NoData)), t)
    ensures (reachable && !DeleteIdRejected(NumberOf(req.routeId)) && !HasKey(t, NumberOf(req.routeId))) ==>
      r == Reply(Some(Response(200, NotInBase, NoData)), t)
    ensures !reachable && !DeleteIdRejected(NumberOf(req.routeId)) ==>
      r == Reply(Some(ServerFailure(StoreFailure)), t)
    ensures reachable && !DeleteIdRejected(NumberOf(req.routeId)) && HasKey(t, NumberOf(req.routeId)) ==>
      r.response.value == Response(200, Deleted, NoData) && r.table.rows == t.rows - {NumberOf(req.routeId).i}
    ensures r.table != t <==> r.response.value == Response(200, Deleted, NoData)
    ensures r.table != t ==>
      var key := NumberOf(req.routeId);
      key.Int? && key.i in t.rows && r.table.rows == t.rows - {key.i}
    ensures UniqueValues(t) ==> UniqueValues(r.table)
  {
    var r := DeleteHandler(req, t, reachable);
    assert r.table != t ==> r.table.rows == t.rows - {NumberOf(req.routeId).i};
    r
  }

  // ---------------------------------------------------------------------
  // Properties
  // ---------------------------------------------------------------------

  /** The lookup runs before the 400 check: even a request with no id and no
      fields answers 500 rather than 400. */
  lemma AlterarClienteSkipsValidation(t: Table, reachable: bool)
    ensures var req := Request(Undef, "", Undef, Undef);
      UpdateFieldsRejected(NumberOf(req.routeId), req.descricao, req.valor)
      && AlterarCliente(req, t, reachable).response.value.status == 500
  {
  }

  /** A name that reads as a number is refused by create with 400, and the
      table is not touched. */
  lemma IncluiRegistroRefusesNumericName(n: int, valor: Value, t: Table, reachable: bool)
    ensures IncluiRegistro(Request(Undef, "", Str(IntToString(n)), valor), t, reachable) == Reply(Some(BadRequest), t)
  {
    NumberOfIntToString(n);
  }

  /** Re-sending a customer's own CPF in an update is refused with 409, since
      the lookup does not exclude the row being edited. */
  lemma OwnCpfConflicts(req: Request, t: Table)
    requires !UpdateFieldsRejected(NumberOf(req.routeId), req.descricao, req.valor)
    requires HasKey(t, NumberOf(req.routeId))
    requires !Nullish(req.valor) && req.valor == t.rows[NumberOf(req.routeId).i].val
    ensures AlterarClienteWithVerificaCpf(req, t, true) == Reply(Some(Response(409, NewCpfTaken, NoData)), t)
  {
    var k := NumberOf(req.routeId).i;
    assert SqlEq(t.rows[k].val, req.valor);
  }
}

=== FILE: http.dfy ===
/** What the two controllers have in common: the request and response shapes,
    the field checks, the catch blocks, and the tails of create, update and
    delete that both controllers write the same way.
 */
module Http {
  import opened JsValues
  import opened Store

  datatype Option<T> = None | Some(value: T)

  /** The parts of an Express request a handler reads: the id query parameter
      of a listing (`idCliente` / `idProduto`), the raw text of the `:id`
      route parameter of an update or delete, and the body fields `descricao`
      and `valor`. */
  datatype Request = Request(queryId: Value, routeId: string, descricao: Value, valor: Value)

  /** The `message` of a JSON response, as a tag; `NoMessage` is a response
      whose body is `{ data }` alone. */
  datatype Message =
    | NoMessage
    | NoResults     // the listing found no rows
    | CheckData     // the body fields failed validation
    | CpfTaken      // create: the CPF is already registered
    | NewCpfTaken   // update: the new CPF is already registered
    | Included      // create succeeded
    | ServerError   // the catch block
    | NotFound      // update: no row with this id
    | NoChanges     // update: the row already held these values
    | Changed       // update succeeded
    | InvalidId     // delete: the id is not a non-zero integer
    | NotInBase     // delete: no row with this id
    | DeleteFailed  // delete: the statement removed no row
    | Deleted       // delete succeeded

  /** Why a handler ended in its catch block; it becomes `errorMessage`. */
  datatype Cause =
    | NotAFunction(member: string)  // a TypeError: the model object has no such member
    | InsertIdZero                  // the error thrown when insert reports insertId 0
    | StoreFailure                  // the database rejected or could not run the statement

  /** The rest of the response body. */
  datatype Payload = NoData | Rows(rows: map<int, Row>) | Inserted(header: Header) | ErrorText(cause: Cause)

  datatype Response = Response(status: int, message: Message, payload: Payload)

  /** The outcome of one request: the response sent, or `None` when the
      handler returns without sending one, and the table afterwards. */
  datatype Reply = Reply(response: Option<Response>, table: Table)

  const BadRequest := Response(400, CheckData, NoData)

  /** The catch block of list, update and delete. */
  function ServerFailure(cause: Cause): Response {
    Response(500, ServerError, ErrorText(cause))
  }

  /** The catch block of create, which answers 200. */
  function CreateFailure(cause: Cause): Response {
    Response(200, ServerError, ErrorText(cause))
  }

  /** The 400 check of create: a falsy field, a name that converts to a
      number, or a value that does not. */
  predicate CreateFieldsRejected(descricao: Value, valor: Value) {
    !Truthy(descricao) || !Truthy(valor) || !IsNaN(descricao) || IsNaN(valor)
  }

  /** The 400 check of update: a falsy id, both fields falsy, or a numeric
      name together with a non-numeric value. The source's fourth clause,
      `typeof id != "number"`, never holds of a `Number(...)` result. */
  predicate UpdateFieldsRejected(id: JsNumber, descricao: Value, valor: Value) {
    !NumTruthy(id) || (!Truthy(descricao) && !Truthy(valor)) || (!IsNaN(descricao) && IsNaN(valor))
  }

  /** The 400 check of delete: a falsy or non-integer id. */
  predicate DeleteIdRejected(id: JsNumber) {
    !NumTruthy(id) || !id.Int?
  }

  /** The two outcome tests after an update; any other pair of counts falls
      through and no response is sent. */
  function ClassifyUpdate(h: Header): (r: Option<Response>)
    ensures r.Some? <==> h.affectedRows == 1 && h.changedRows <= 1
    ensures r.Some? ==> r.value.status == 200 && r.value.payload == NoData
    ensures r.Some? ==> (r.value.message == NoChanges <==> h.changedRows == 0)
    ensures r.Some? ==> (r.value.message == Changed <==> h.changedRows == 1)
  {
    if h.affectedRows == 1 && h.changedRows == 0 then Some(Response(200, NoChanges, NoData))
    else if h.affectedRows == 1 && h.changedRows == 1 then Some(Response(200, Changed, NoData))
    else None
  }

  /** The outcome test after a delete; every outcome answers 200. */
  function ClassifyDelete(h: Header): (r: Response)
    ensures r.status == 200 && r.payload == NoData
    ensures r.message == DeleteFailed <==> h.affectedRows == 0
    ensures r.message == Deleted <==> h.affectedRows != 0
  {
    if h.affectedRows == 0 then Response(200, DeleteFailed, NoData) else Response(200, Deleted, NoData)
  }

  /** The tail of create once the fields are accepted: insert, then report
      201, or the create catch block when the store reports insertId 0 (the
      row stays inserted: the error is thrown after the statement ran). */
  function InsertAndReport(t: Table, descricao: Value, valor: Value): (r: Reply)
    ensures r.response.Some?
    ensures r.response.value.status in {200, 201}
    ensures GainsRow(t, r.table, r.table.nextId - 1, Row(descricao, valor))
    ensures r.table == Insert(t, descricao, valor).table
    ensures r.response.value.status == 201 <==> r.table.nextId - 1 != 0
    ensures r.response.value.status == 201 ==>
      r.response.value.payload.Inserted? && r.response.value.payload.header.insertId == r.table.nextId - 1
    ensures r.response.value.status == 200 ==> r.response.value == CreateFailure(InsertIdZero)
  {
    var e := Insert(t, descricao, valor);
    assert e.table.rows == t.rows[e.header.insertId := Row(descricao, valor)];
    if e.header.insertId == 0 then Reply(Some(CreateFailure(InsertIdZero)), e.table)
    else Reply(Some(Response(201, Included, Inserted(e.header))), e.table)
  }

  /** The tail of update once the row is known to exist: the `??` merge with
      the current row, the UPDATE statement and the outcome tests. */
  function MergeAndUpdate(t: Table, key: JsNumber, descricao: Value, valor: Value): (r: Reply)
    requires HasKey(t, key)
    ensures r.response.Some?
    ensures r.response.value == Response(200, NoChanges, NoData) <==> r.table == t
    ensures r.response.value == Response(200, Changed, NoData) <==> r.table != t
    ensures r.table.rows.Keys == t.rows.Keys && r.table.nextId == t.nextId
    ensures r.table.rows[key.i].name == (if Nullish(descricao) then t.rows[key.i].name else descricao)
    ensures r.table.rows[key.i].val == (if Nullish(valor) then t.rows[key.i].val else valor)
    ensures forall k :: k in t.rows && k != key.i ==> r.table.rows[k] == t.rows[k]
  {
    var current := t.rows[key.i];
    var e := Update(t, key, Coalesce(descricao, current.name), Coalesce(valor, current.val));
    Reply(ClassifyUpdate(e.header), e.table)
  }

  /** `deleteCliente` and `deleteProduto`, which are written alike. */
  function DeleteHandler(req: Request, t: Table, reachable: bool): (r: Reply)
    ensures r.response.Some? && r.response.value.status in {200, 400, 500}
    ensures DeleteIdRejected(NumberOf(req.routeId)) ==> r == Reply(Some(Response(400, InvalidId, NoData)), t)
    ensures r.response.value.message == Deleted <==> r.table != t
    ensures r.table != t ==>
      var key := NumberOf(req.routeId);
      key.Int? && key.i in t.rows && r.table.rows.Keys == t.rows.Keys - {key.i} && r.table.nextId == t.nextId
    ensures forall k :: k in r.table.rows ==> k in t.rows && r.table.rows[k] == t.rows[k]
    ensures reachable && !DeleteIdRejected(NumberOf(req.routeId)) ==>
      (r.response.value.message == NotInBase <==> !HasKey(t, NumberOf(req.routeId)))
    ensures r.response.value.message != DeleteFailed
    ensures !reachable && !DeleteIdRejected(NumberOf(req.routeId)) ==>
      r == Reply(Some(ServerFailure(StoreFailure)), t)
    ensures reachable && !DeleteIdRejected(NumberOf(req.routeId)) && HasKey(t, NumberOf(req.routeId)) ==>
      r.response.value == Response(200, Deleted, NoData) && r.table.rows == t.rows - {NumberOf(req.routeId).i}
  {
    var id := NumberOf(req.routeId);
    if DeleteIdRejected(id) then Reply(Some(Response(400, InvalidId, NoData)), t)
    else if !reachable then Reply(Some(ServerFailure(StoreFailure)), t)
    else if |SelectById(t, id)| == 0 then Reply(Some(Response(200, NotInBase, NoData)), t)
    else
      var e := Delete(t, id);
      Reply(Some(ClassifyDelete(e.header)), e.table)
  }

  // ---------------------------------------------------------------------
  // What the field checks accept
  // ---------------------------------------------------------------------

  /** Create accepts exactly a non-empty name that does not read as a number,
      with a value that is `true`, a non-zero number or a non-empty string
      that reads as a number (white space alone reads as 0 and is accepted). */
  lemma CreateAcceptance(descricao: Value, valor: Value)
    ensures !CreateFieldsRejected(descricao, valor) <==>
      && descricao.Str? && descricao.s != "" && NumberOf(descricao.s) == NaN
      && (|| valor == Bool(true)
          || (valor.Num? && valor.n != 0)
          || (valor.Str? && valor.s != "" && NumberOf(valor.s) != NaN))
  {
  }

  /** Delete accepts exactly the non-zero integers. */
  lemma DeleteIdAcceptance(id: JsNumber)
    ensures !DeleteIdRejected(id) <==> exists k: int :: k != 0 && id == Int(k)
  {
    if !DeleteIdRejected(id) {
      assert id.i != 0 && id == Int(id.i);
    }
  }
}

=== FILE: js_values.dfy ===
/** The JavaScript values the controllers inspect, and the three JavaScript
    operations they apply to them: truthiness (`if (x)`, `!x`), numeric
    conversion (`Number(x)`, `isNaN(x)`, `Number.isInteger(x)`) and the
    nullish-coalescing operator `??`.
 */
module JsValues {

  /** What `Number(x)` yields, as far as the controllers tell numbers apart:
      NaN, an integer, or any other number (a finite value with a fractional
      part, or an infinity). */
  datatype JsNumber = NaN | Int(i: int) | NonInteger

  /** A value taken from a request: a field of the parsed JSON body or a
      query-string parameter. `Undef` is a field that is absent. `Num(n)` is a
      JSON number; a price with cents is written as an integer (in hundredths),
      which keeps what the controllers observe of a number: whether it is zero,
      that it is not NaN, and which numbers are equal. */
  datatype Value = Undef | Null | Bool(b: bool) | Num(n: int) | Str(s: string)

  /** JavaScript truthiness: `undefined`, `null`, `false`, `0` and `""` are falsy. */
  predicate Truthy(v: Value) {
    match v
    case Undef => false
    case Null => false
    case Bool(b) => b
    case Num(n) => n != 0
    case Str(s) => s != ""
  }

  /** Truthiness of a number: NaN and zero are falsy. */
  predicate NumTruthy(x: JsNumber) {
    match x
    case NaN => false
    case Int(i) => i != 0
    case NonInteger => true
  }

  /** The values `??` replaces. */
  predicate Nullish(v: Value) {
    v.Undef? || v.Null?
  }

  /** `a ?? b`. */
  function Coalesce(a: Value, b: Value): Value {
    if Nullish(a) then b else a
  }

  /** `Number(v)`. */
  function ToNumber(v: Value): JsNumber {
    match v
    case Undef => NaN
    case Null => Int(0)
    case Bool(b) => if b then Int(1) else Int(0)
    case Num(n) => Int(n)
    case Str(s) => NumberOf(s)
  }

  /** The global `isNaN(v)`, which converts its argument with `Number` first. */
  predicate IsNaN(v: Value) {
    ToNumber(v).NaN?
  }

  // ---------------------------------------------------------------------
  // Number(string): the decimal part of the StringNumericLiteral grammar
  // ---------------------------------------------------------------------

  predicate IsSpace(c: char) {
    c == ' ' || c == '\t' || c == '\n' || c == '\r' || c == '\U{B}' || c == '\U{C}'
  }

  predicate IsDigit(c: char) {
    '0' <= c <= '9'
  }

  predicate AllDigits(s: string) {
    forall i :: 0 <= i < |s| ==> IsDigit(s[i])
  }

  predicate AllZeros(s: string) {
    forall i :: 0 <= i < |s| ==> s[i] == '0'
  }

  function TrimStart(s: string): string {
    if |s| > 0 && IsSpace(s[0]) then TrimStart(s[1..]) else s
  }

  function TrimEnd(s: string): string {
    if |s| > 0 && IsSpace(s[|s| - 1]) then TrimEnd(s[..|s| - 1]) else s
  }

  function Trim(s: string): string {
    TrimEnd(TrimStart(s))
  }

  /** The value of a run of decimal digits. */
  function DigitsValue(s: string): nat
    requires AllDigits(s)
  {
    if |s| == 0 then 0 else DigitsValue(s[..|s| - 1]) * 10 + (s[|s| - 1] - '0') as int
  }

  /** Position of the first occurrence of `c` in `s`. */
  function IndexOf(s: string, c: char): (k: nat)
    requires c in s
    ensures k < |s| && s[k] == c && c !in s[..k]
  {
    if s[0] == c then 0 else 1 + IndexOf(s[1..], c)
  }

  /** An unsigned decimal literal: `Infinity`, or digits with an optional
      fraction and at least one digit in all. */
  function UnsignedNumber(t: string): JsNumber {
    if t == "Infinity" then NonInteger
    else if '.' in t then
      var k := IndexOf(t, '.');
      var whole, fraction := t[..k], t[k + 1..];
      if AllDigits(whole) && AllDigits(fraction) && |whole| + |fraction| > 0 then
        (if AllZeros(fraction) then Int(DigitsValue(whole)) else NonInteger)
      else NaN
    else if |t| > 0 && AllDigits(t) then Int(DigitsValue(t))
    else NaN
  }

  function Negate(x: JsNumber): JsNumber {
    match x
    case Int(i) => Int(-i)
    case _ => x
  }

  /** `Number(s)` for a string: surrounding white space is ignored, the
      empty string is 0, and a sign may precede an unsigned literal. */
  function NumberOf(s: string): JsNumber {
    var t := Trim(s);
    if t == "" then Int(0)
    else if t[0] == '-' then Negate(UnsignedNumber(t[1..]))
    else if t[0] == '+' then UnsignedNumber(t[1..])
    else UnsignedNumber(t)
  }

  /** The characters a string that `Number` accepts can be made of. */
  predicate NumericChar(c: char) {
    IsDigit(c) || IsSpace(c) || c in "+-.Infinity"
  }

  // ---------------------------------------------------------------------
  // Decimal rendering of integers, the inverse of NumberOf on integers
  // ---------------------------------------------------------------------

  function DigitChar(d: nat): char
    requires d < 10
  {
    ('0' as int + d) as char
  }

  function NatToString(n: nat): (s: string)
    ensures |s| > 0 && AllDigits(s)
  {
    if n < 10 then [DigitChar(n)] else NatToString(n / 10) + [DigitChar(n % 10)]
  }

  /** `String(n)` for an integer. */
  function IntToString(n: int): string {
    if n < 0 then "-" + NatToString(-n) else NatToString(n)
  }

  // ---------------------------------------------------------------------
  // Properties
  // ---------------------------------------------------------------------

  /** The facts about `isNaN` the controllers depend on: an absent field is
      NaN; null, booleans, JSON numbers and the empty string are not. */
  lemma IsNaNFacts()
    ensures IsNaN(Undef) && !IsNaN(Null) && !IsNaN(Str(""))
    ensures forall b: bool :: !IsNaN(Bool(b))
    ensures forall n: int :: !IsNaN(Num(n))
  {
  }

  lemma {:induction false} DigitsValueOfNatToString(n: nat)
    ensures DigitsValue(NatToString(n)) == n
  {
    if n >= 10 {
      var s := NatToString(n);
      var prefix := NatToString(n / 10);
      assert s[..|s| - 1] == prefix;
      DigitsValueOfNatToString(n / 10);
    }
  }

  lemma TrimOfUnspaced(s: string)
    requires |s| > 0 && !IsSpace(s[0]) && !IsSpace(s[|s| - 1])
    ensures Trim(s) == s
  {
  }

  lemma UnsignedNumberOfDigits(s: string)
    requires |s| > 0 && AllDigits(s)
    ensures UnsignedNumber(s) == Int(DigitsValue(s))
  {
    assert s != "Infinity" by { assert !IsDigit("Infinity"[0]); }
  }

  /** Round trip: `Number(String(n)) === n` for every integer `n`. */
  lemma NumberOfIntToString(n: int)
    ensures NumberOf(IntToString(n)) == Int(n)
  {
    var s := IntToString(n);
    if n < 0 {
      var digits := NatToString(-n);
      assert IsDigit(digits[|digits| - 1]);
      assert s[|s| - 1] == digits[|digits| - 1];
      TrimOfUnspaced(s);
      assert s[1..] == digits;
      UnsignedNumberOfDigits(digits);
      DigitsValueOfNatToString(-n);
    } else {
      assert IsDigit(s[0]) && IsDigit(s[|s| - 1]);
      TrimOfUnspaced(s);
      UnsignedNumberOfDigits(s);
      DigitsValueOfNatToString(n);
    }
  }

  lemma {:induction false} TrimStartKeeps(s: string, c: char)
    requires c in s && !IsSpace(c)
    ensures c in TrimStart(s)
  {
    if |s| > 0 && IsSpace(s[0]) {
      assert s == [s[0]] + s[1..];
      TrimStartKeeps(s[1..], c);
    }
  }

  lemma {:induction false} TrimEndKeeps(s: string, c: char)
    requires c in s && !IsSpace(c)
    ensures c in TrimEnd(s)
  {
    if |s| > 0 && IsSpace(s[|s| - 1]) {
      assert s == s[..|s| - 1] + [s[|s| - 1]];
      TrimEndKeeps(s[..|s| - 1], c);
    }
  }

  lemma UnsignedNumberChars(t: string, c: char)
    requires c in t && !UnsignedNumber(t).NaN?
    ensures NumericChar(c)
  {
    if t == "Infinity" {
    } else if '.' in t {
      var k := IndexOf(t, '.');
      assert t == t[..k] + [t[k]] + t[k + 1..];
      if c in t[..k] {
        var j :| 0 <= j < k && t[..k][j] == c;
      } else if c in t[k + 1..] {
        var j :| 0 <= j < |t[k + 1..]| && t[k + 1..][j] == c;
      }
    } else {
      var j :| 0 <= j < |t| && t[j] == c;
    }
  }

  /** A string holding a character other than a digit, ASCII white space, a
      sign, `.` or a letter of `Infinity` converts to NaN under this model of
      `Number`. */
  lemma NumberOfForeignCharIsNaN(s: string, i: int)
    requires 0 <= i < |s| && !NumericChar(s[i])
    ensures NumberOf(s) == NaN
  {
    var c := s[i];
    TrimStartKeeps(s, c);
    TrimEndKeeps(TrimStart(s), c);
    var t := Trim(s);
    assert c in t;
    if t[0] == '-' || t[0] == '+' {
      assert t == [t[0]] + t[1..];
      assert c in t[1..];
      if !UnsignedNumber(t[1..]).NaN? {
        UnsignedNumberChars(t[1..], c);
      }
    } else if !UnsignedNumber(t).NaN? {
      UnsignedNumberChars(t, c);
    }
  }
}

=== FILE: produto_controller.dfy ===
/** The product controller: list, create, update and delete over the
    `produtos` table, with the same `reachable` convention as the customer
    controller. Products carry no uniqueness rule.
 */
module ProdutoController {
  import opened JsValues
  import opened Store
  import opened Http

  /** The members the `produtoModel` object defines; member names are
      case-sensitive. */
  const ProdutoModelMembers: set<string> := {"selectAll", "selectById", "insert", "update", "delete"}

  /** selecionaTodos, with the member it calls to list every product named
      by `listAll`. A truthy id parameter answers 200 with the rows under
      that id, even when there are none. Otherwise an undefined member throws
      a TypeError (500); a defined one lists every row, or the "no results"
      message for an empty table. */
  function SelecionaTodosCalling(listAll: string, req: Request, t: Table, reachable: bool): (r: Reply)
    requires listAll in {"selectALL", "selectAll"}
    ensures r.table == t && r.response.Some?
    ensures reachable && Truthy(req.queryId) ==>
      && r.response.value.status == 200 && r.response.value.payload.Rows?
      && (forall k :: k in r.response.value.payload.rows <==> k in t.rows && ToNumber(req.queryId) == Int(k))
      && (forall k :: k in r.response.value.payload.rows ==> r.response.value.payload.rows[k] == t.rows[k])
    ensures !reachable && (Truthy(req.queryId) || listAll in ProdutoModelMembers) ==>
      r.response.value == ServerFailure(StoreFailure)
    ensures !Truthy(req.queryId) && listAll !in ProdutoModelMembers ==>
      r.response.value == ServerFailure(NotAFunction(listAll))
    ensures reachable && !Truthy(req.queryId) && listAll in ProdutoModelMembers ==>
      if t.rows == map[] then r.response.value == Response(200, NoResults, NoData)
      else r.response.value == Response(200, NoMessage, Rows(t.rows))
  {
    if Truthy(req.queryId) then
      if !reachable then Reply(Some(ServerFailure(StoreFailure)), t)
      else Reply(Some(Response(200, NoMessage, Rows(SelectById(t, ToNumber(req.queryId))))), t)
    else if listAll !in ProdutoModelMembers then Reply(Some(ServerFailure(NotAFunction(listAll))), t)
    else if !reachable then Reply(Some(ServerFailure(StoreFailure)), t)
    else
      var rows := SelectAll(t);
      if |rows| == 0 then Reply(Some(Response(200, NoResults, NoData)), t)
      else Reply(Some(Response(200, NoMessage, Rows(rows))), t)
  }

  /** selecionaTodos as written: without an id parameter it calls
      `produtoModel.selectALL`, which does not exist, so listing every
      product always answers 500. */
  function SelecionaTodos(req: Request, t: Table, reachable: bool): (r: Reply)
    ensures r.table == t
    ensures !Truthy(req.queryId) ==> r.response == Some(ServerFailure(NotAFunction("selectALL")))
    ensures reachable && Truthy(req.queryId) ==>
      r.response.Some? && r.response.value.status == 200 && r.response.value.payload.Rows?
    ensures !reachable && Truthy(req.queryId) ==> r.response == Some(ServerFailure(StoreFailure))
  {
    SelecionaTodosCalling("selectALL", req, t, reachable)
  }

  /** A variant, not the source: selecionaTodos calling `selectAll`, the
      listing member the model object does define. */
  function SelecionaTodosWithSelectAll(req: Request, t: Table, reachable: bool): (r: Reply)
    ensures r.table == t && r.response.Some?
    ensures !reachable ==> r.response.value == ServerFailure(StoreFailure)
    ensures reachable ==> r.response.value.status == 200
    ensures reachable && !Truthy(req.queryId) ==>
      if t.rows == map[] then r.response.value == Response(200, NoResults, NoData)
      else r.response.value == Response(200, NoMessage, Rows(t.rows))
  {
    SelecionaTodosCalling("selectAll", req, t, reachable)
  }

  /** incluiRegistro: the same 400 check as for customers, then an insert;
      there is no uniqueness check. */
  function IncluiRegistro(req: Request, t: Table, reachable: bool): (r: Reply)
    ensures r.response.Some?
    ensures CreateFieldsRejected(req.descricao, req.valor) ==> r == Reply(Some(BadRequest), t)
    ensures !CreateFieldsRejected(req.descricao, req.valor) && !reachable ==>
      r == Reply(Some(CreateFailure(StoreFailure)), t)
    ensures !CreateFieldsRejected(req.descricao, req.valor) && reachable ==>
      r == InsertAndReport(t, req.descricao, req.valor)
    ensures !CreateFieldsRejected(req.descricao, req.valor) && reachable ==>
      && GainsRow(t, r.table, r.table.nextId - 1, Row(req.descricao, req.valor))
      && (r.response.value.status == 201 <==> r.table.nextId - 1 != 0)
    ensures r.response.value.status == 201 ==>
      r.response.value.payload == Inserted(Header(r.table.nextId - 1, 1, 0))
    ensures r.response.value.status in {200, 201, 400}
  {
    if CreateFieldsRejected(req.descricao, req.valor) then Reply(Some(BadRequest), t)
    else if !reachable then Reply(Some(CreateFailure(StoreFailure)), t)
    else InsertAndReport(t, req.descricao, req.valor)
  }

  /** alterarProduto: the 400 check, the existence check, the `??` merge
      with the current row, the UPDATE and the outcome tests. */
  function AlterarProduto(req: Request, t: Table, reachable: bool): (r: Reply)
    ensures r.response.Some?
    ensures UpdateFieldsRejected(NumberOf(req.routeId), req.descricao, req.valor) ==> r == Reply(Some(BadRequest), t)
    ensures (!UpdateFieldsRejected(NumberOf(req.routeId), req.descricao, req.valor) && !reachable) ==>
      r == Reply(Some(ServerFailure(StoreFailure)), t)
    ensures (!UpdateFieldsRejected(NumberOf(req.routeId), req.descricao, req.valor) && reachable
      && !HasKey(t, NumberOf(req.routeId))) ==> r == Reply(Some(Response(200, NotFound, NoData)), t)
    ensures r.table.rows.Keys == t.rows.Keys && r.table.nextId == t.nextId
    ensures r.table != t <==> r.response.value == Response(200, Changed, NoData)
    ensures (!UpdateFieldsRejected(NumberOf(req.routeId), req.descricao, req.valor) && reachable
      && HasKey(t, NumberOf(req.routeId))) ==>
      var key := NumberOf(req.routeId);
      && r.response.value.status == 200
      && (r.response.value.message == NoChanges || r.response.value.message == Changed)
      && r.table.rows[key.i].name == (if Nullish(req.descricao) then t.rows[key.i].name else req.descricao)
      && r.table.rows[key.i].val == (if Nullish(req.valor) then t.rows[key.i].val else req.valor)
      && (forall k :: k in t.rows && k != key.i ==> r.table.rows[k] == t.rows[k])
  {
    var id := NumberOf(req.routeId);
    if UpdateFieldsRejected(id, req.descricao, req.valor) then Reply(Some(BadRequest), t)
    else if !reachable then Reply(Some(ServerFailure(StoreFailure)), t)
    else if |SelectById(t, id)| == 0 then Reply(Some(Response(200, NotFound, NoData)), t)
    else MergeAndUpdate(t, id, req.descricao, req.valor)
  }

  /** deleteProduto. */
  function DeleteProduto(req: Request, t: Table, reachable: bool): (r: Reply)
    ensures r.response.Some?
    ensures DeleteIdRejected(NumberOf(req.routeId)) ==> r == Reply(Some(Response(400, InvalidId, NoData)), t)
    ensures (reachable && !DeleteIdRejected(NumberOf(req.routeId)) && !HasKey(t, NumberOf(req.routeId))) ==>
      r == Reply(Some(Response(200, NotInBase, NoData)), t)
    ensures !reachable && !DeleteIdRejected(NumberOf(req.routeId)) ==>
      r == Reply(Some(ServerFailure(StoreFailure)), t)
    ensures reachable && !DeleteIdRejected(NumberOf(req.routeId)) && HasKey(t, NumberOf(req.routeId)) ==>
      r.response.value == Response(200, Deleted, NoData) && r.table.rows == t.rows - {NumberOf(req.routeId).i}
    ensures r.table != t <==> r.response.value == Response(200, Deleted, NoData)
    ensures r.table != t ==>
      var key := NumberOf(req.routeId);
      key.Int? && key.i in t.rows && r.table.rows == t.rows - {key.i}
  {
    var r := DeleteHandler(req, t, reachable);
    assert r.table != t ==> r.table.rows == t.rows - {NumberOf(req.routeId).i};
    r
  }

  // ---------------------------------------------------------------------
  // Properties
  // ---------------------------------------------------------------------

  /** Two identical valid creates both succeed, under two different ids, once
      the id counter has started. */
  lemma IncluiRegistroTwice(req: Request, t: Table)
    requires !CreateFieldsRejected(req.descricao, req.valor) && t.nextId > 0
    ensures var r1 := IncluiRegistro(req, t, true);
      var r2 := IncluiRegistro(req, r1.table, true);
      && r1.response.value.status == 201 && r2.response.value.status == 201
      && r1.response.value.payload.header.insertId != r2.response.value.payload.header.insertId
      && |r2.table.rows| == |t.rows| + 2
  {
  }

  /** The type clause of the 400 check rejects only a numeric name together
      with a non-numeric value, so a numeric name with a numeric value passes
      and is written. */
  lemma AlterarProdutoNumericNamePasses(n: int, m: int, t: Table, id: int)
    requires id in t.rows && id != 0 && m != 0
    ensures var r := AlterarProduto(Request(Undef, IntToString(id), Str(IntToString(n)), Num(m)), t, true);
      r.table.rows[id] == Row(Str(IntToString(n)), Num(m))
  {
    NumberOfIntToString(id);
    var req := Request(Undef, IntToString(id), Str(IntToString(n)), Num(m));
    assert !IsNaN(req.valor);
    assert !UpdateFieldsRejected(NumberOf(req.routeId), req.descricao, req.valor);
  }

  /** Likewise a non-numeric value with a non-numeric name passes and is
      written. */
  lemma AlterarProdutoTextValuePasses(t: Table, id: int)
    requires id in t.rows && id != 0
    ensures var r := AlterarProduto(Request(Undef, IntToString(id), Str("abc"), Str("xyz")), t, true);
      r.table.rows[id] == Row(Str("abc"), Str("xyz"))
  {
    NumberOfIntToString(id);
    NumberOfForeignCharIsNaN("abc", 0);
    var req := Request(Undef, IntToString(id), Str("abc"), Str("xyz"));
    assert IsNaN(req.descricao);
    assert !UpdateFieldsRejected(NumberOf(req.routeId), req.descricao, req.valor);
  }

  /** `??` keeps falsy values other than null and undefined: an update with
      an empty name and a valid value blanks the product's name. */
  lemma AlterarProdutoCanBlankName(m: int, t: Table, id: int)
    requires id in t.rows && id != 0 && m != 0
    ensures var r := AlterarProduto(Request(Undef, IntToString(id), Str(""), Num(m)), t, true);
      r.table.rows[id].name == Str("")
  {
    NumberOfIntToString(id);
  }
}

=== FILE: service.dfy ===
/** The service as a whole: the route table that picks a handler for a
    method and path, and one request as one atomic step over both tables.
 */
module Service {
  import opened JsValues
  import opened Store
  import opened Http
  import ClienteController
  import ProdutoController

  /** The database `loja_db`: its two tables. */
  datatype Db = Db(clientes: Table, produtos: Table)

  datatype Verb = Get | Post | Put | Delete

  datatype Resource = Clientes | Produtos

  datatype Endpoint = Endpoint(resource: Resource, verb: Verb)

  /** Which handlers run: the source as written, or with the two calls to
      undefined model members (`findByCpf`, `selectALL`) replaced by the
      members that exist (`verificaCpf`, `selectAll`). */
  datatype Build = AsWritten | Corrected

  /** The response to one request and the database afterwards. */
  datatype Outcome = Outcome(response: Option<Response>, db: Db)

  /** The route table: GET and POST on `/clientes` and `/produtos`, PUT and
      DELETE on `/clientes/:idCliente` and `/produtos/:idProduto`, with the
      text of the `:id` segment. Paths are given as their segments. */
  function Route(verb: Verb, path: seq<string>): (r: Option<(Endpoint, string)>)
    ensures r.Some? ==> r.value.0.verb == verb
    ensures r.Some? ==> |path| > 0 && path[0] == (if r.value.0.resource == Clientes then "clientes" else "produtos")
    ensures r.Some? && (verb == Get || verb == Post) ==> path == [path[0]] && r.value.1 == ""
    ensures r.Some? && (verb == Put || verb == Delete) ==> |path| == 2 && r.value.1 == path[1] != ""
    ensures |path| == 1 && path[0] in {"clientes", "produtos"} && (verb == Get || verb == Post) ==> r.Some?
    ensures |path| == 2 && path[0] in {"clientes", "produtos"} && path[1] != "" && (verb == Put || verb == Delete) ==>
      r.Some?
  {
    var resource :=
      if |path| > 0 && path[0] == "clientes" then Some(Clientes)
      else if |path| > 0 && path[0] == "produtos" then Some(Produtos)
      else None;
    if resource.None? then None
    else if |path| == 1 && (verb == Get || verb == Post) then Some((Endpoint(resource.value, verb), ""))
    else if |path| == 2 && path[1] != "" && (verb == Put || verb == Delete) then
      Some((Endpoint(resource.value, verb), path[1]))
    else None
  }

  /** One request to one endpoint, as one atomic step. */
  function Handle(build: Build, e: Endpoint, req: Request, db: Db, reachable: bool): (r: Outcome)
    ensures r.response.Some?
    ensures e.resource == Clientes ==> r.db.produtos == db.produtos
    ensures e.resource == Produtos ==> r.db.clientes == db.clientes
    ensures e.verb == Get ==> r.db == db
    ensures !reachable ==> r.db == db
    ensures r.db != db ==> r.response.value.status in {200, 201}
    ensures UniqueValues(db.clientes) ==> UniqueValues(r.db.clientes)
  {
    match e.resource
    case Clientes =>
      var reply :=
        match e.verb
        case Get => ClienteController.SelecionaTodos(req, db.clientes, reachable)
        case Post => ClienteController.IncluiRegistro(req, db.clientes, reachable)
        case Put =>
          if build == AsWritten then ClienteController.AlterarCliente(req, db.clientes, reachable)
          else ClienteController.AlterarClienteWithVerificaCpf(req, db.clientes, reachable)
        case Delete => ClienteController.DeleteCliente(req, db.clientes, reachable);
      Outcome(reply.response, db.(clientes := reply.table))
    case Produtos =>
      var reply :=
        match e.verb
        case Get =>
          if build == AsWritten then ProdutoController.SelecionaTodos(req, db.produtos, reachable)
          else ProdutoController.SelecionaTodosWithSelectAll(req, db.produtos, reachable)
        case Post => ProdutoController.IncluiRegistro(req, db.produtos, reachable)
        case Put => ProdutoController.AlterarProduto(req, db.produtos, reachable)
        case Delete => ProdutoController.DeleteProduto(req, db.produtos, reachable);
      Outcome(reply.response, db.(produtos := reply.table))
  }

  /** A request by method and path: `None` when no route matches (Express's
      own 404, outside the model). The `:id` segment becomes `routeId`. */
  function Serve(build: Build, verb: Verb, path: seq<string>, req: Request, db: Db, reachable: bool): (r: Option<Outcome>)
    ensures r.Some? <==> Route(verb, path).Some?
    ensures r.Some? ==> r.value.response.Some?
    ensures r.Some? && r.value.db != db ==> r.value.response.value.status in {200, 201}
    ensures r.Some? ==> (UniqueValues(db.clientes) ==> UniqueValues(r.value.db.clientes))
  {
    match Route(verb, path)
    case None => None
    case Some((e, id)) => Some(Handle(build, e, req.(routeId := id), db, reachable))
  }

  // ---------------------------------------------------------------------
  // Runs of several requests
  // ---------------------------------------------------------------------

  /** The database after a run of requests, one after another; each step
      carries whether the database answered that request. */
  function Run(build: Build, steps: seq<(Endpoint, Request, bool)>, db: Db): (r: Db)
    ensures UniqueValues(db.clientes) ==> UniqueValues(r.clientes)
    ensures (forall i :: 0 <= i < |steps| ==> steps[i].0.resource == Clientes) ==> r.produtos == db.produtos
    ensures (forall i :: 0 <= i < |steps| ==> steps[i].0.verb == Get) ==> r == db
    ensures (forall i :: 0 <= i < |steps| ==> !steps[i].2) ==> r == db
  {
    if |steps| == 0 then db
    else Run(build, steps[1..], Handle(build, steps[0].0, steps[0].1, db, steps[0].2).db)
  }

  const Empty: Table := TableState(map[], 1)

  /** Listing every product fails in the source and succeeds once corrected. */
  lemma ListProdutosCounterexample()
    ensures var db := Db(Empty, Empty);
      var req := Request(Undef, "", Undef, Undef);
      && Handle(AsWritten, Endpoint(Produtos, Get), req, db, true).response.value
           == ServerFailure(NotAFunction("selectALL"))
      && Handle(Corrected, Endpoint(Produtos, Get), req, db, true).response.value
           == Response(200, NoResults, NoData)
  {
  }

  /** Renaming a customer fails in the source and succeeds once corrected. */
  lemma UpdateClienteCounterexample()
    ensures var t: Table := TableState(map[1 := Row(Str("Ana"), Num(4800000000))], 2);
      var db := Db(t, Empty);
      var req := Request(Undef, "1", Str("Bia"), Undef);
      && Handle(AsWritten, Endpoint(Clientes, Put), req, db, true)
           == Outcome(Some(ServerFailure(NotAFunction("findByCpf"))), db)
      && Handle(Corrected, Endpoint(Clientes, Put), req, db, true)
           == Outcome(Some(Response(200, Changed, NoData)),
                      Db(TableState(map[1 := Row(Str("Bia"), Num(4800000000))], 2), Empty))
  {
    NumberOfIntToString(1);
    NumberOfForeignCharIsNaN("Bia", 0);
    var t: Table := TableState(map[1 := Row(Str("Ana"), Num(4800000000))], 2);
    var req := Request(Undef, "1", Str("Bia"), Undef);
    assert NumberOf("1") == Int(1) by { assert IntToString(1) == "1"; }
    assert !UpdateFieldsRejected(Int(1), req.descricao, req.valor);
    assert |VerificaCpf(t, Undef)| == 0;
  }

  lemma NumberOfOne()
    ensures NumberOf("1") == Int(1)
  {
    NumberOfIntToString(1);
    assert IntToString(1) == "1";
  }

  // The database after each step of the product lifecycle below.
  const Db0 := Db(Empty, Empty)
  const Db1 := Db(Empty, TableState(map[1 := Row(Str("Teclado"), Num(12625))], 2))
  const Db2 := Db(Empty, TableState(map[1 := Row(Str("Teclado"), Num(9990))], 2))
  const Db3 := Db(Empty, TableState(map[], 2))

  lemma CreateStep(build: Build)
    ensures Handle(build, Endpoint(Produtos, Post), Request(Undef, "", Str("Teclado"), Num(12625)), Db0, true)
      == Outcome(Some(Response(201, Included, Inserted(Header(1, 1, 0)))), Db1)
  {
    NumberOfForeignCharIsNaN("Teclado", 0);
  }

  lemma UpdateStep(build: Build)
    ensures Handle(build, Endpoint(Produtos, Put), Request(Undef, "1", Undef, Num(9990)), Db1, true)
      == Outcome(Some(Response(200, Changed, NoData)), Db2)
  {
    NumberOfOne();
    assert !UpdateFieldsRejected(Int(1), Undef, Num(9990));
  }

  lemma DeleteStep(build: Build)
    ensures Handle(build, Endpoint(Produtos, Delete), Request(Undef, "1", Undef, Undef), Db2, true)
      == Outcome(Some(Response(200, Deleted, NoData)), Db3)
  {
    NumberOfOne();
  }

  lemma ReadStep(build: Build)
    ensures Handle(build, Endpoint(Produtos, Get), Request(Str("1"), "", Undef, Undef), Db2, true)
      == Outcome(Some(Response(200, NoMessage, Rows(Db2.produtos.rows))), Db2)
  {
    NumberOfOne();
    assert SelectById(Db2.produtos, Int(1)) == Db2.produtos.rows;
  }

  lemma RereadStep(build: Build)
    ensures Handle(build, Endpoint(Produtos, Get), Request(Str("1"), "", Undef, Undef), Db3, true)
      == Outcome(Some(Response(200, NoMessage, Rows(map[]))), Db3)
  {
    NumberOfOne();
    assert SelectById(Db3.produtos, Int(1)) == map[];
  }

  lemma RedeleteStep(build: Build)
    ensures Handle(build, Endpoint(Produtos, Delete), Request(Undef, "1", Undef, Undef), Db3, true)
      == Outcome(Some(Response(200, NotInBase, NoData)), Db3)
  {
    NumberOfOne();
  }

  /** Product lifecycle: create, change the price, read it back, delete; then
      the same id reads empty and a second delete finds nothing. */
  lemma ProdutoLifecycle(build: Build)
    ensures
      var create := Handle(build, Endpoint(Produtos, Post), Request(Undef, "", Str("Teclado"), Num(12625)), Db0, true);
      var update := Handle(build, Endpoint(Produtos, Put), Request(Undef, "1", Undef, Num(9990)), create.db, true);
      var read := Handle(build, Endpoint(Produtos, Get), Request(Str("1"), "", Undef, Undef), update.db, true);
      var delete := Handle(build, Endpoint(Produtos, Delete), Request(Undef, "1", Undef, Undef), read.db, true);
      var reread := Handle(build, Endpoint(Produtos, Get), Request(Str("1"), "", Undef, Undef), delete.db, true);
      var redelete := Handle(build, Endpoint(Produtos, Delete), Request(Undef, "1", Undef, Undef), delete.db, true);
      && create.response.value == Response(201, Included, Inserted(Header(1, 1, 0)))
      && update.response.value == Response(200, Changed, NoData)
      && read.response.value == Response(200, NoMessage, Rows(map[1 := Row(Str("Teclado"), Num(9990))]))
      && delete.response.value == Response(200, Deleted, NoData)
      && reread.response.value == Response(200, NoMessage, Rows(map[]))
      && redelete.response.value == Response(200, NotInBase, NoData)
  {
    CreateStep(build);
    UpdateStep(build);
    ReadStep(build);
    DeleteStep(build);
    RereadStep(build);
    RedeleteStep(build);
  }

  /** Customer CPF uniqueness: a second customer with a registered CPF is
      refused with 409, and the table is unchanged. */
  lemma DuplicateCpfRefused(build: Build)
    ensures
      var db0 := Db(Empty, Empty);
      var first := Handle(build, Endpoint(Clientes, Post), Request(Undef, "", Str("Ana"), Num(4800000000)), db0, true);
      var second := Handle(build, Endpoint(Clientes, Post), Request(Undef, "", Str("Bia"), Num(4800000000)), first.db, true);
      && first.response.value.status == 201
      && second.response.value == Response(409, CpfTaken, NoData)
      && second.db == first.db
  {
    NumberOfForeignCharIsNaN("Ana", 0);
    NumberOfForeignCharIsNaN("Bia", 0);
    var db0 := Db(Empty, Empty);
    var first := Handle(build, Endpoint(Clientes, Post), Request(Undef, "", Str("Ana"), Num(4800000000)), db0, true);
    assert first.db.clientes.rows == map[1 := Row(Str("Ana"), Num(4800000000))];
    assert first.db.clientes.rows[1].val == Num(4800000000);
  }
}

=== FILE: store.dfy ===
/** The two MySQL tables, `clientes` and `produtos`, as immutable values, and
    the statements the model files send to them.

    Both model files issue the same five statements against their own table
    (`clienteModel` adds the CPF lookup), so one table type serves both: a row
    is (nome_cliente, cpf_cliente) in `clientes` and (nome_produto,
    valor_produto) in `produtos`, keyed by id_cliente / id_produto.
 */
module Store {
  import opened JsValues

  datatype Row = Row(name: Value, val: Value)

  /** The rows by primary key, and the AUTO_INCREMENT counter. */
  datatype TableState = TableState(rows: map<int, Row>, nextId: int)

  /** The counter is beyond every key in use, so the next insert gets a fresh key. */
  predicate CounterAhead(t: TableState) {
    t.nextId >= 0 && forall k :: k in t.rows ==> 0 <= k < t.nextId
  }

  type Table = t: TableState | CounterAhead(t) witness TableState(map[], 0)

  /** The header mysql2 returns for a write statement (insertId, affectedRows,
      changedRows); affectedRows counts matched rows, as with mysql2's default
      FOUND_ROWS flag. */
  datatype Header = Header(insertId: int, affectedRows: nat, changedRows: nat)

  /** The table after a write statement, and the statement's header. */
  datatype Executed = Executed(table: Table, header: Header)

  /** Whether `WHERE id = key` matches a row. */
  predicate HasKey(t: Table, key: JsNumber) {
    key.Int? && key.i in t.rows
  }

  /** SQL `=` on bound parameters: a comparison involving NULL is never true
      (mysql2 binds `undefined` as NULL). */
  predicate SqlEq(a: Value, b: Value) {
    !Nullish(a) && !Nullish(b) && a == b
  }

  /** No two rows share a non-NULL value in the second column: the CPF
      uniqueness the customer controller maintains. */
  predicate UniqueValues(t: Table) {
    forall k1, k2 :: k1 in t.rows && k2 in t.rows && k1 != k2 ==> !SqlEq(t.rows[k1].val, t.rows[k2].val)
  }

  /** `after` is `before` with one more row, `row`, under the key `id`,
      which was free. */
  predicate GainsRow(before: Table, after: Table, id: int, row: Row) {
    id !in before.rows && after.rows == before.rows[id := row]
  }

  /** `SELECT * FROM <table>;` — the rows as a result set keyed by id. */
  function SelectAll(t: Table): map<int, Row> {
    t.rows
  }

  /** `SELECT * FROM <table> WHERE id=?;` */
  function SelectById(t: Table, key: JsNumber): (rs: map<int, Row>)
    ensures |rs| <= 1
    ensures forall k :: k in rs <==> k in t.rows && key == Int(k)
    ensures forall k :: k in rs ==> rs[k] == t.rows[k]
  {
    if HasKey(t, key) then map[key.i := t.rows[key.i]] else map[]
  }

  /** `SELECT * FROM clientes WHERE cpf_cliente = ?;` (verificaCpf). */
  function VerificaCpf(t: Table, cpf: Value): (rs: map<int, Row>)
    ensures forall k :: k in rs ==> k in t.rows && rs[k] == t.rows[k] && SqlEq(rs[k].val, cpf)
    ensures forall k :: k in t.rows && SqlEq(t.rows[k].val, cpf) ==> k in rs
    ensures |rs| == 0 <==> Nullish(cpf) || forall k :: k in t.rows ==> t.rows[k].val != cpf
  {
    var rs := map k | k in t.rows && SqlEq(t.rows[k].val, cpf) :: t.rows[k];
    assert (forall k :: k !in rs) ==> rs == map[];
    rs
  }

  /** `INSERT INTO <table>(name, val) VALUES (?,?);` */
  function Insert(t: Table, name: Value, val: Value): (r: Executed)
    ensures r.header.insertId !in t.rows && r.header.insertId < r.table.nextId
    ensures r.header.affectedRows == 1 && r.header.changedRows == 0
    ensures r.table.rows.Keys == t.rows.Keys + {r.header.insertId}
    ensures r.table.rows[r.header.insertId] == Row(name, val)
    ensures forall k :: k in t.rows ==> r.table.rows[k] == t.rows[k]
    ensures |r.table.rows| == |t.rows| + 1
  {
    var id := t.nextId;
    Executed(TableState(t.rows[id := Row(name, val)], id + 1), Header(id, 1, 0))
  }

  /** `UPDATE <table> SET name=?, val=? WHERE id=?;` */
  function Update(t: Table, key: JsNumber, name: Value, val: Value): (r: Executed)
    ensures r.header.affectedRows == (if HasKey(t, key) then 1 else 0)
    ensures r.header.changedRows == (if HasKey(t, key) && t.rows[key.i] != Row(name, val) then 1 else 0)
    ensures r.table.rows.Keys == t.rows.Keys && r.table.nextId == t.nextId
    ensures HasKey(t, key) ==> r.table.rows[key.i] == Row(name, val)
    ensures forall k :: k in t.rows && key != Int(k) ==> r.table.rows[k] == t.rows[k]
    ensures r.header.changedRows == 0 <==> r.table == t
  {
    if HasKey(t, key) then
      var changed := if t.rows[key.i] == Row(name, val) then 0 else 1;
      var rows := t.rows[key.i := Row(name, val)];
      assert changed == 0 ==> rows == t.rows;
      assert changed == 1 ==> rows[key.i] != t.rows[key.i];
      Executed(TableState(rows, t.nextId), Header(0, 1, changed))
    else
      Executed(t, Header(0, 0, 0))
  }

  /** `DELETE FROM <table> WHERE id=?;` */
  function Delete(t: Table, key: JsNumber): (r: Executed)
    ensures r.header.affectedRows == (if HasKey(t, key) then 1 else 0)
    ensures r.table.rows.Keys == t.rows.Keys - (if HasKey(t, key) then {key.i} else {})
    ensures forall k :: k in r.table.rows ==> r.table.rows[k] == t.rows[k]
    ensures r.table.nextId == t.nextId
    ensures |r.table.rows| == |t.rows| - r.header.affectedRows
  {
    if HasKey(t, key) then
      Executed(TableState(t.rows - {key.i}, t.nextId), Header(0, 1, 0))
    else
      Executed(t, Header(0, 0, 0))
  }

  // ---------------------------------------------------------------------
  // Properties relating several statements
  // ---------------------------------------------------------------------

  /** A row inserted is found again under the id the insert reported, with
      the values it was given. */
  lemma InsertThenSelectById(t: Table, name: Value, val: Value)
    ensures var e := Insert(t, name, val);
      SelectById(e.table, Int(e.header.insertId)) == map[e.header.insertId := Row(name, val)]
  {
    var e := Insert(t, name, val);
    var rs := SelectById(e.table, Int(e.header.insertId));
    assert rs.Keys == {e.header.insertId};
  }

  /** The whole result set after an insert is the old one plus the new row. */
  lemma SelectAllAfterInsert(t: Table, name: Value, val: Value)
    ensures var e := Insert(t, name, val);
      SelectAll(e.table) == SelectAll(t)[e.header.insertId := Row(name, val)]
  {
  }

  /** The products table has no unique column: inserting the same values
      twice yields two rows under two different ids. */
  lemma InsertTwiceDistinctIds(t: Table, name: Value, val: Value)
    ensures var e1 := Insert(t, name, val);
      var e2 := Insert(e1.table, name, val);
      && e1.header.insertId != e2.header.insertId
      && e2.table.rows[e1.header.insertId] == e2.table.rows[e2.header.insertId] == Row(name, val)
      && |e2.table.rows| == |t.rows| + 2
  {
  }

  /** Writing a row's current values back matches the row but changes nothing. */
  lemma UpdateWithCurrentValues(t: Table, id: int)
    requires id in t.rows
    ensures Update(t, Int(id), t.rows[id].name, t.rows[id].val) == Executed(t, Header(0, 1, 0))
  {
  }

  /** Deleting the same id twice: the second statement affects no row. */
  lemma DeleteTwice(t: Table, id: int)
    requires id in t.rows
    ensures var e1 := Delete(t, Int(id));
      var e2 := Delete(e1.table, Int(id));
      e1.header.affectedRows == 1 && e2.header.affectedRows == 0 && e2.table == e1.table
      && SelectById(e1.table, Int(id)) == map[]
  {
  }

  /** Inserting a value no row holds keeps the second column unique. */
  lemma InsertKeepsUnique(t: Table, name: Value, val: Value)
    requires |VerificaCpf(t, val)| == 0
    ensures UniqueValues(t) ==> UniqueValues(Insert(t, name, val).table)
  {
    if UniqueValues(t) {
      var e := Insert(t, name, val);
      var id := e.header.insertId;
      forall k1, k2 | k1 in e.table.rows && k2 in e.table.rows && k1 != k2
        ensures !SqlEq(e.table.rows[k1].val, e.table.rows[k2].val)
      {
        if k1 == id {
          assert k2 in t.rows && k2 !in VerificaCpf(t, val);
        } else if k2 == id {
          assert k1 in t.rows && k1 !in VerificaCpf(t, val);
        } else {
          assert k1 in t.rows && k2 in t.rows;
        }
      }
    }
  }

  /** Updating a row keeps the second column unique when the row keeps its
      value or takes one that no row holds. */
  lemma UpdateKeepsUnique(t: Table, key: JsNumber, name: Value, val: Value)
    requires HasKey(t, key)
    requires val == t.rows[key.i].val || |VerificaCpf(t, val)| == 0
    ensures UniqueValues(t) ==> UniqueValues(Update(t, key, name, val).table)
  {
    if UniqueValues(t) {
      var e := Update(t, key, name, val);
      forall k1, k2 | k1 in e.table.rows && k2 in e.table.rows && k1 != k2
        ensures !SqlEq(e.table.rows[k1].val, e.table.rows[k2].val)
      {
        assert k1 in t.rows && k2 in t.rows;
        if val != t.rows[key.i].val {
          if k1 == key.i {
            assert k2 !in VerificaCpf(t, val);
          } else if k2 == key.i {
            assert k1 !in VerificaCpf(t, val);
          }
        }
      }
    }
  }

  /** Deleting a row keeps the second column unique. */
  lemma DeleteKeepsUnique(t: Table, key: JsNumber)
    requires UniqueValues(t)
    ensures UniqueValues(Delete(t, key).table)
  {
  }
}
